=== FILE: README.md ===
# Chess move-legality engine: a verified Dafny model

This project models the rules engine of a small two-player chess program
(`testchess.py`). It covers two parts:

- **Piece predicates.** These are the six `can_move` functions (Pawn, Rook, Knight, Bishop, Queen, King). Each decides whether a move has a legal shape and an unblocked path. They ignore turn order and check.
- **The `ChessGame` state machine.** This covers the initial placement, square parsing (`"e2"` → row 1, column 4) and the ordered validation chain of `is_valid_move`. It also covers the `move_piece` transition: castling's second relocation for the rook, the history entry and the turn flip.

Everything is functional. A board is an 8×8 `seq<seq<Option<Piece>>>` (the `Board.Board` subset type). A `Piece` is a kind, a colour and a `hasMoved` flag. `ChessGame.MovePiece` maps a game and two square texts to `(success, message, game')`.

Files and modules:

| file | module | contents |
|---|---|---|
| wrappers.dfy | Wrappers | `Option` |
| board.dfy | Board | kinds, colours, pieces, squares, the grid, `Put`, per-colour counts, "strictly between" geometry |
| pieces.dfy | Pieces | the six movement predicates, the scan loops of Rook and Bishop, dispatch by kind |
| notation.dfy | Notation | `parse_position`, square names, the move-history text and a decoder for it |
| refusals.dfy | Refusals | the reasons a move is refused and their exact texts |
| game.dfy | ChessGame | game state, initial placement, `is_valid_move`, `move_piece`, replay of a command sequence |
| game_facts.dfy | GameFacts | effect of a move on cells, counts and history; invariant of reachable games |
| scenarios.dfy | Scenarios | concrete games from the initial position |

Points where the behaviour is easy to get wrong:

- **Castling re-check.** `move_piece` re-checks the castling rook before moving it (testchess.py:258, 265). The King predicate has already demanded an unmoved Rook on that square, so once validation passes the re-check can never refuse. The model keeps the re-check, and `ChessGame.MovePiece` proves that success is exactly "both squares parse and validation passes".
- **Rook colour not checked.** The castling rook's colour is not checked (testchess.py:155, 162), so any unmoved Rook qualifies. The model does the same. In reachable games every unmoved piece is on its starting square (`GameFacts.Reachable`), so the rook found there is the mover's own (`GameFacts.CastlingRookIsOwn`).
- **History as strings.** History entries are the strings the code builds, not structured records. `Notation.Describe` proves that each string determines the move it records.

## Model

| member | source | states |
|---|---|---|
| Board.Put | testchess.py:271-272 | writing one cell sets that cell and leaves every other cell of the board unchanged |
| Board.CountPut | testchess.py:271-272 | overwriting a cell changes a colour's piece count by exactly what left and what arrived |
| Pieces.PawnCanMove | testchess.py:25-41 | a pawn move is exactly a one-step advance onto an empty square, a two-step advance from row 1 (White) / row 6 (Black) across and onto empty squares, or a one-column diagonal advance onto an opposing piece; it always goes in the colour's direction (+1 White, -1 Black) |
| Pieces.ScanLine | testchess.py:59-67 | the `range(start+step, end, step)` scan is clear iff no index that range visits holds a piece |
| Pieces.RookCanMove | testchess.py:53-71 | accepted iff start and end share a row or column, every square strictly between is empty whatever colour would occupy it, and the end square holds no piece of the mover's colour |
| Pieces.KnightCanMove | testchess.py:82-91 | accepted iff the displacement is one of the eight knight offsets (±1,±2), (±2,±1) and the end square holds no piece of the mover's colour |
| Pieces.KnightIgnoresPath | testchess.py:82-91 | two boards that agree on the end square give the same answer, so intervening pieces never block a knight |
| Pieces.ScanDiagonal | testchess.py:109-116 | the `while r != end_row and c != end_col` walk is clear iff every square from its current square (inclusive) to the target (exclusive) on the diagonal is empty |
| Pieces.BishopCanMove | testchess.py:102-120 | accepted iff the row and column distances are equal, every square strictly between on the diagonal is empty (none at distance 1), and the end square holds no own piece |
| Pieces.QueenCanMove | testchess.py:131-132 | accepted iff the end square holds no own piece and either the rook condition (straight line, clear) or the bishop condition (diagonal, clear) holds |
| Pieces.KingCanMove | testchess.py:144-174 | accepted iff a one-square move in any direction onto a square without an own piece, or castling: unmoved king, same row, two columns, unmoved Rook at col+3 with col+1, col+2 empty, or at col-4 with col-1..col-3 empty; any two-column move it accepts is castling |
| Pieces.CanMove | testchess.py:237 | dispatch on the kind of the piece at the start square; no accepted move ends on a square holding a piece of the mover's colour |
| Notation.ParsePosition | testchess.py:215-223 | accepts exactly two-character texts with a file 'a'..'h' then a rank '1'..'8', returning (rank-1, file-'a'), always on the board |
| Notation.ParseSquareName | testchess.py:215-223 | parsing the name of any square gives that square back |
| Notation.SquareNameOfParse | testchess.py:215-223 | any text that parses is the name of the square it denotes |
| Notation.Describe | testchess.py:275-277 | the history entry "<name> from s to e[ capturing <name>]", with two-character square texts, reads back (by `ParseRecord`) into the moving kind, both square texts and the captured kind |
| Notation.RecordRoundTrip | testchess.py:275-277 | any text laid out as "<name> from <2 chars> to <2 chars>" plus the capture suffix decodes to exactly the record it was built from |
| Notation.LeadingKindOf | testchess.py:275 | no piece name followed by " from " is a prefix of another kind's, so an entry's opening words identify the piece that moved |
| Notation.CaptureSuffixParts | testchess.py:276-277 | the capture suffix is empty exactly for a quiet move, and otherwise is " capturing " followed by the captured kind's name |
| ChessGame.InitialBoard | testchess.py:184-203 | the standard placement: every piece unmoved, kings on e1 and e8, and Black's position the mirror image of White's across the middle of the board |
| ChessGame.Initial | testchess.py:178-182 | a new game has the standard placement with sixteen pieces of each colour, White to move and an empty history |
| ChessGame.InitialCount | testchess.py:184-203 | each colour starts with sixteen pieces |
| Refusals.Message | testchess.py:229-266 | the refusal texts of `is_valid_move` and `move_piece`; characters 0, 1, 2 and 6 of each text are determined by the reason (including the colour to move and the piece name) |
| Refusals.TurnMessage | testchess.py:233-234 | the wrong-turn text carries the colour to move, so White's and Black's texts differ |
| Refusals.ShapeMessage | testchess.py:237-238 | the movement-rule text starts with the piece's name, so each kind gives a different text |
| Refusals.CastlingMessage | testchess.py:258-266 | the castling refusal text "Castling not allowed: rook has moved or missing" is told apart from every other refusal by its distinguishing characters |
| Refusals.ReasonKeyInjective | testchess.py:229-266 | the characters that tell the texts apart are different for every pair of distinct reasons |
| Refusals.MessageIdentifiesReason | testchess.py:229-266 | different refusal reasons give different texts, and no refusal text equals the success text "Move successful." |
| ChessGame.IsValidMove | testchess.py:225-239 | the checks run in a fixed order (bounds, piece present, right colour, distinct squares, piece rule) and the first failure is the reason; legal exactly when all pass, and a legal move never ends on an own piece |
| ChessGame.MovedBoard | testchess.py:255-273 | the board after an accepted move: start square empty; the mover, marked as moved, on a distinct end square; when castling, the rook square at col+3 / col-4 empty and the rook, marked as moved, at col+1 / col-1; every other cell unchanged |
| ChessGame.MovePiece | testchess.py:241-280 | refused commands leave the game unchanged with the reason's message; success exactly when both texts parse and validation passes (the castling re-check never refuses); success flips the turn and appends exactly one history entry |
| GameFacts.ParsedNeverOutOfBounds | testchess.py:215-229 | when both texts parse, the command is never refused with "Position out of bounds.": parsed squares are always on the board |
| ChessGame.Play | testchess.py:278 | replaying commands only appends to the history, at most one entry per command |
| GameFacts.MoveEffect | testchess.py:249-278 | after success the start square is empty, the end square holds the mover marked as moved, castling moves the unmoved rook from col+3 / col-4 to col+1 / col-1 marked as moved and never captures, no other cell changes, and the history gains the describing entry |
| GameFacts.MoveCounts | testchess.py:252-272 | the side that moved keeps all its pieces; the other side loses exactly one piece when the end square was occupied and none otherwise |
| GameFacts.MovedBoardCounts | testchess.py:255-272 | moving the piece (and, when castling, the rook onto an empty square) changes a colour's count only by the piece that stood on the end square |
| GameFacts.InitialInv | testchess.py:178-203 | the initial game satisfies the reachable-game invariant |
| GameFacts.MoveKeepsUnmovedAtHome | testchess.py:255-273 | since a move only writes empty cells and pieces marked as moved, a piece whose flag is still false stands on its initial square |
| GameFacts.MoveKeepsInv | testchess.py:241-280 | every command, accepted or refused, preserves the invariant: turn/history parity, unmoved pieces at home, at most sixteen pieces per side |
| GameFacts.PlayKeepsInv | testchess.py:241-280 | any sequence of commands preserves the invariant |
| GameFacts.Reachable | testchess.py:181-182 | from the initial placement, White is to move iff the history has even length, and each side has at most sixteen pieces |
| GameFacts.UnmovedKingAtHome | testchess.py:151-167 | in a reachable game an unmoved king stands on e1 or e8, so the castling rook columns col+3 and col-4 are on the board |
| GameFacts.CastlingRookIsOwn | testchess.py:151-167 | in a reachable game, an unmoved Rook on the row of an unmoved king has the king's colour, so the rook castling moves is the mover's own |
| Scenarios.OpeningPawnDoubleStep | testchess.py:33-36 | from the start, "e2 e4" succeeds, leaves e2 empty and the moved pawn on e4, passes the turn to Black and records "Pawn from e2 to e4" |
| Scenarios.WhiteDoubleStep | testchess.py:33-36 | in any game where White is to move with an unmoved e-pawn and e3, e4 empty, "e2 e4" succeeds, appends "Pawn from e2 to e4" and leaves rows 5-8 unchanged |
| Scenarios.OpeningReply | testchess.py:33-36 | after "e2 e4", Black's "e7 e5" succeeds, leaving the two pawns face to face with White to move |
| Scenarios.BlackDoubleStep | testchess.py:33-36 | in any game where Black is to move with an unmoved e-pawn and e6, e5 empty, "e7 e5" succeeds, puts the pawn, marked as moved, on e5 and leaves e4 as it was |
| Scenarios.OpeningBlockedPawn | testchess.py:29-32 | after "e2 e4", "e7 e5", White's "e4 e5" is refused as "Pawn cannot move like that." and changes nothing |
| Scenarios.QueenBlockedAtStart | testchess.py:112-114 | from the start, "d1 h5" is refused because e2 is occupied |
| Scenarios.WhiteQueenD1H5Blocked | testchess.py:112-114 | in any game with White to move, a White queen on d1 and e2 occupied, "d1 h5" is refused with the Queen message |
| Scenarios.KnightJumpsAtStart | testchess.py:82-90 | from the start, "b1 a3" succeeds although a2 and b2 are occupied |
| Scenarios.WhiteKnightB1A3 | testchess.py:82-90 | with White to move, "b1 a3" succeeds for an unmoved White knight on b1 with a3 empty, whatever occupies the squares in between |
| Scenarios.KingsideCastleScenario | testchess.py:255-262 | with f1 and g1 empty, "e1 g1" puts the king on g1 and the h1 rook on f1, both marked as moved, and empties e1 and h1 |
| Scenarios.WhiteCastlesKingside | testchess.py:144-174 | in any game with White to move, king and h1 rook unmoved and f1, g1 empty, "e1 g1" castles: king to g1, rook to f1, both marked as moved, e1 and h1 emptied |

## Left out

- Board rendering, Unicode piece symbols and `print_board` (testchess.py:13-14, 205-213) are console output only.
- `print_move_history` (testchess.py:282-284) is a print loop over the history the model already keeps.
- `generate_game_tree` (testchess.py:286-300) writes a file through an external graph library and runs a shell command.
- `main` (testchess.py:303-345) is an interactive input loop. This includes its translation of `O-O` / `O-O-O` into e1→g1 / e1→c1 (e8 for Black). `ChessGame.Play` stands in for a sequence of commands.
- Pieces.KingCanMove: treats a castling rook square off the board (col+3 > 7, col-4 < 0) as "no rook". The code would instead raise `IndexError` or wrap a negative index. This only happens for an unmoved king off the e-file, and `GameFacts.UnmovedKingAtHome` shows no reachable game has one.
- Pieces.BishopCanMove and Pieces.QueenCanMove: require start ≠ end. On equal squares the Python Bishop loop walks off the board. `is_valid_move` rejects equal squares before the piece rule is asked (testchess.py:235-236).
- Python object identity: the code moves piece objects and mutates their `has_moved` field. The model copies the piece value with the flag set, which is observably the same because no piece is ever shared between two cells.
- Check, checkmate, stalemate, en passant, promotion and draw rules are absent from the code and are not added.

=== FILE: board.dfy ===
/**
  The board of one chess game: piece values, squares, the 8×8 grid of optional
  pieces, single-cell updates, per-colour piece counts, and the "strictly between"
  geometry shared by the sliding pieces.
*/
module Board {
  import opened Wrappers

  datatype Color = White | Black

  datatype Kind = Pawn | Rook | Knight | Bishop | Queen | King

  /**
    A piece as stored in one cell. Every piece carries `hasMoved`: it starts
    false and is set on every piece that moves, but only the King's and the
    Rook's are ever read (for castling).
  */
  datatype Piece = Piece(kind: Kind, color: Color, hasMoved: bool)

  type Cell = Option<Piece>

  /** A (row, column) pair: row 0 is White's back rank, column 0 is the a-file. */
  datatype Square = Sq(row: int, col: int)

  function Opponent(c: Color): Color {
    if c == White then Black else White
  }

  /** The `name` attribute of each piece class, used in messages and move records. */
  function Name(k: Kind): string {
    match k
    case Pawn => "Pawn"
    case Rook => "Rook"
    case Knight => "Knight"
    case Bishop => "Bishop"
    case Queen => "Queen"
    case King => "King"
  }

  function ColorName(c: Color): string {
    if c == White then "white" else "black"
  }

  predicate InBounds(q: Square) {
    0 <= q.row < 8 && 0 <= q.col < 8
  }

  predicate IsGrid(rows: seq<seq<Cell>>) {
    |rows| == 8 && forall r :: 0 <= r < 8 ==> |rows[r]| == 8
  }

  /** The board, indexed `[row][col]`. */
  type Board = rows: seq<seq<Cell>> | IsGrid(rows) witness seq(8, r => seq(8, c => None))

  function At(b: Board, q: Square): Cell
    requires InBounds(q)
  {
    b[q.row][q.col]
  }

  /** The board with cell `q` replaced by `x`. */
  function Put(b: Board, q: Square, x: Cell): (b': Board)
    requires InBounds(q)
    ensures At(b', q) == x
    ensures forall p :: InBounds(p) && p != q ==> At(b', p) == At(b, p)
  {
    b[q.row := b[q.row][q.col := x]]
  }

  predicate HasColor(x: Cell, c: Color) {
    x.Some? && x.value.color == c
  }

  /**
    Square `q` holds a piece of colour `c`. Rook, Knight, Bishop and King accept
    a destination only when this is false (it is empty or holds an opposing piece).
  */
  predicate OwnPiece(b: Board, q: Square, c: Color)
    requires InBounds(q)
  {
    HasColor(At(b, q), c)
  }

  function Mark(x: Cell, c: Color): nat {
    if HasColor(x, c) then 1 else 0
  }

  function CountCells(cells: seq<Cell>, c: Color): nat {
    if |cells| == 0 then 0 else Mark(cells[0], c) + CountCells(cells[1..], c)
  }

  function CountRows(rows: seq<seq<Cell>>, c: Color): nat {
    if |rows| == 0 then 0 else CountCells(rows[0], c) + CountRows(rows[1..], c)
  }

  /** Number of pieces of colour `c` on the board. */
  function Count(b: Board, c: Color): nat {
    CountRows(b, c)
  }

  lemma {:induction false} CountCellsUpdate(cells: seq<Cell>, i: int, x: Cell, c: Color)
    requires 0 <= i < |cells|
    ensures CountCells(cells[i := x], c) == CountCells(cells, c) - Mark(cells[i], c) + Mark(x, c)
  {
    if i == 0 {
      assert cells[i := x][1..] == cells[1..];
    } else {
      assert cells[i := x][1..] == cells[1..][i - 1 := x];
      CountCellsUpdate(cells[1..], i - 1, x, c);
    }
  }

  lemma {:induction false} CountRowsUpdate(rows: seq<seq<Cell>>, i: int, row: seq<Cell>, c: Color)
    requires 0 <= i < |rows|
    ensures CountRows(rows[i := row], c) == CountRows(rows, c) - CountCells(rows[i], c) + CountCells(row, c)
  {
    if i == 0 {
      assert rows[i := row][1..] == rows[1..];
    } else {
      assert rows[i := row][1..] == rows[1..][i - 1 := row];
      CountRowsUpdate(rows[1..], i - 1, row, c);
    }
  }

  /** Replacing one cell changes a colour's count by what left and what arrived. */
  lemma CountPut(b: Board, q: Square, x: Cell, c: Color)
    requires InBounds(q)
    ensures Count(Put(b, q, x), c) == Count(b, c) - Mark(At(b, q), c) + Mark(x, c)
  {
    CountCellsUpdate(b[q.row], q.col, x, c);
    CountRowsUpdate(b, q.row, b[q.row][q.col := x], c);
  }

  function Abs(x: int): nat {
    if x < 0 then -x else x
  }

  /** `x` lies strictly between `a` and `z`, in either order. */
  predicate Between(a: int, x: int, z: int) {
    a < x < z || z < x < a
  }

  /** `q` is a square strictly between `s` and `e` on their common row or column. */
  predicate OnLineBetween(s: Square, e: Square, q: Square) {
    || (q.row == s.row == e.row && Between(s.col, q.col, e.col))
    || (q.col == s.col == e.col && Between(s.row, q.row, e.row))
  }

  /** `q` is a square strictly between `s` and `e` on their common diagonal. */
  predicate OnDiagonalBetween(s: Square, e: Square, q: Square) {
    && Between(s.row, q.row, e.row)
    && Between(s.col, q.col, e.col)
    && Abs(q.row - s.row) == Abs(q.col - s.col)
  }

  /** Every square strictly between `s` and `e` on a row or column is empty, whoever would occupy it. */
  ghost predicate LineClear(b: Board, s: Square, e: Square) {
    forall q :: InBounds(q) && OnLineBetween(s, e, q) ==> At(b, q).None?
  }

  /** Every square strictly between `s` and `e` on a diagonal is empty. */
  ghost predicate DiagonalClear(b: Board, s: Square, e: Square) {
    forall q :: InBounds(q) && OnDiagonalBetween(s, e, q) ==> At(b, q).None?
  }
}

=== FILE: game.dfy ===
/**
  The ChessGame state machine: the board, whose turn it is, and the move
  history; the initial placement, the ordered validation chain of
  `is_valid_move`, and the `move_piece` transition including castling.
*/
module ChessGame {
  import opened Wrappers
  import opened Board
  import opened Pieces
  import opened Notation
  import opened Refusals

  /** One game: the board, the colour to move, and the history entries in order. */
  datatype Game = Game(board: Board, turn: Color, history: seq<string>)

  /** The verdict of `is_valid_move`: `(True, "")` or `(False, reason)`. */
  datatype Verdict = Legal | Illegal(reason: Refusal)

  /** The `(success, message)` pair of `move_piece` together with the game afterwards. */
  datatype MoveResult = MoveResult(success: bool, message: string, game: Game)

  // ----- Initial placement -----

  /** Back-rank kinds from the a-file to the h-file. */
  function BackRank(col: int): Kind
    requires 0 <= col < 8
  {
    [Rook, Knight, Bishop, Queen, King, Bishop, Knight, Rook][col]
  }

  /** What place_pieces puts on (row, col); every piece starts unmoved. */
  function InitialCell(row: int, col: int): Cell
    requires 0 <= row < 8 && 0 <= col < 8
  {
    if row == 1 then Some(Piece(Pawn, White, false))
    else if row == 6 then Some(Piece(Pawn, Black, false))
    else if row == 0 then Some(Piece(BackRank(col), White, false))
    else if row == 7 then Some(Piece(BackRank(col), Black, false))
    else None
  }

  /** The square each colour's king starts on (e1, e8). */
  function KingHome(c: Color): Square {
    if c == White then Sq(0, 4) else Sq(7, 4)
  }

  function InitialBoard(): (b: Board)
    ensures forall q :: InBounds(q) ==> At(b, q) == InitialCell(q.row, q.col)
    ensures forall q :: InBounds(q) && At(b, q).Some? ==> !At(b, q).value.hasMoved
    ensures forall c: Color :: At(b, KingHome(c)) == Some(Piece(King, c, false))
    ensures forall q :: InBounds(q) && At(b, q).Some? ==>
      At(b, Sq(7 - q.row, q.col)) == Some(At(b, q).value.(color := Opponent(At(b, q).value.color)))
  {
    seq(8, r requires 0 <= r < 8 => seq(8, c requires 0 <= c < 8 => InitialCell(r, c)))
  }

  /** Pieces of colour `c` that place_pieces puts on rows `k`..7. */
  function InitialCountFrom(k: nat, c: Color): nat
    decreases 8 - k
  {
    if k >= 8 then 0
    else (if (c == White && k <= 1) || (c == Black && k >= 6) then 8 else 0) + InitialCountFrom(k + 1, c)
  }

  lemma {:induction false} CountCellsUniform(cells: seq<Cell>, c: Color, all: bool)
    requires forall i :: 0 <= i < |cells| ==> HasColor(cells[i], c) == all
    ensures CountCells(cells, c) == if all then |cells| else 0
  {
    if |cells| > 0 {
      CountCellsUniform(cells[1..], c, all);
    }
  }

  lemma {:induction false} InitialRowsCount(k: nat, c: Color)
    requires k <= 8
    ensures CountRows(InitialBoard()[k..], c) == InitialCountFrom(k, c)
    decreases 8 - k
  {
    var b := InitialBoard();
    if k < 8 {
      var all := (c == White && k <= 1) || (c == Black && k >= 6);
      forall i | 0 <= i < 8 ensures HasColor(b[k][i], c) == all {
        assert b[k][i] == At(b, Sq(k, i));
      }
      CountCellsUniform(b[k], c, all);
      assert b[k..][1..] == b[k + 1..];
      InitialRowsCount(k + 1, c);
    }
  }

  /** Each side starts with sixteen pieces. */
  lemma InitialCount(c: Color)
    ensures Count(InitialBoard(), c) == 16
  {
    InitialRowsCount(0, c);
    assert InitialBoard()[0..] == InitialBoard();
  }

  /** ChessGame.__init__: the standard placement with sixteen pieces a side, White to move, empty history. */
  function Initial(): (g: Game)
    ensures Count(g.board, White) == 16 && Count(g.board, Black) == 16
    ensures g.turn == White && g.history == []
  {
    InitialCount(White);
    InitialCount(Black);
    Game(InitialBoard(), White, [])
  }

  // ----- Validation -----

  /**
    is_valid_move: bounds, then a piece on the start square, then that piece
    belongs to the side to move, then start differs from end, then the
    piece's own movement rule; the first failing test is the reason given.
  */
  function IsValidMove(g: Game, s: Square, e: Square): (v: Verdict)
    ensures v == Legal <==>
      && InBounds(s) && InBounds(e)
      && HasColor(At(g.board, s), g.turn)
      && s != e
      && CanMove(g.board, At(g.board, s).value, s, e)
    ensures v == Illegal(OutOfBounds) <==> !(InBounds(s) && InBounds(e))
    ensures v == Illegal(NoPiece) <==> InBounds(s) && InBounds(e) && At(g.board, s).None?
    ensures v == Illegal(WrongTurn(g.turn)) <==>
      InBounds(s) && InBounds(e) && At(g.board, s).Some? && At(g.board, s).value.color != g.turn
    ensures v == Illegal(SameSquare) <==> InBounds(s) && InBounds(e) && HasColor(At(g.board, s), g.turn) && s == e
    ensures v.Illegal? && v.reason.IllegalShape? <==>
      && InBounds(s) && InBounds(e) && HasColor(At(g.board, s), g.turn) && s != e
      && !CanMove(g.board, At(g.board, s).value, s, e)
    ensures v.Illegal? && v.reason.IllegalShape? ==> v.reason.kind == At(g.board, s).value.kind
    ensures v == Legal ==> !OwnPiece(g.board, e, g.turn)
  {
    if !(0 <= s.row < 8 && 0 <= s.col < 8 && 0 <= e.row < 8 && 0 <= e.col < 8) then Illegal(OutOfBounds)
    else
      var piece := At(g.board, s);
      if piece.None? then Illegal(NoPiece)
      else if piece.value.color != g.turn then Illegal(WrongTurn(g.turn))
      else if e == s then Illegal(SameSquare)
      else if !CanMove(g.board, piece.value, s, e) then Illegal(IllegalShape(piece.value.kind))
      else Legal
  }

  // ----- The move -----

  /** A King move of two columns is castling, and also moves a rook. */
  predicate IsCastlingMove(p: Piece, s: Square, e: Square) {
    p.kind == King && Abs(e.col - s.col) == 2
  }

  /** Column the castling rook comes from: three to the right (kingside) or four to the left. */
  function RookFromCol(s: Square, e: Square): int {
    if e.col > s.col then s.col + 3 else s.col - 4
  }

  /** Column the castling rook lands on: the square the king passed over. */
  function RookToCol(s: Square, e: Square): int {
    if e.col > s.col then s.col + 1 else s.col - 1
  }

  /** The castling re-check of move_piece refuses when the rook square is empty or its piece has moved. */
  predicate RookGone(x: Cell) {
    x.None? || x.value.hasMoved
  }

  /** The kind of a captured cell's piece, if any. */
  function CapturedKind(x: Cell): Option<Kind> {
    if x.Some? then Some(x.value.kind) else None
  }

  /** A cell that a move from `s` to `e` by piece `p` writes to. */
  predicate Touched(p: Piece, s: Square, e: Square, q: Square) {
    || q == s
    || q == e
    || (IsCastlingMove(p, s, e) && q.row == s.row && (q.col == RookFromCol(s, e) || q.col == RookToCol(s, e)))
  }

  /**
    The board after an accepted move: when castling, the rook first moves from
    its corner to the square the king passes over, marked as moved; then the
    mover goes from `s` to `e` (discarding any piece there), marked as moved.
  */
  function MovedBoard(b: Board, s: Square, e: Square): (b': Board)
    requires InBounds(s) && InBounds(e) && At(b, s).Some?
    requires IsCastlingMove(At(b, s).value, s, e) ==>
      InBounds(Sq(s.row, RookFromCol(s, e))) && InBounds(Sq(s.row, RookToCol(s, e)))
      && At(b, Sq(s.row, RookFromCol(s, e))).Some?
    ensures At(b', s) == None
    ensures s != e ==> At(b', e) == Some(At(b, s).value.(hasMoved := true))
    ensures IsCastlingMove(At(b, s).value, s, e) ==>
      && At(b', Sq(s.row, RookFromCol(s, e))) == None
      && At(b', Sq(s.row, RookToCol(s, e))) == Some(At(b, Sq(s.row, RookFromCol(s, e))).value.(hasMoved := true))
    ensures forall q :: InBounds(q) && !Touched(At(b, s).value, s, e, q) ==> At(b', q) == At(b, q)
  {
    var p := At(b, s).value;
    var withRook :=
      if IsCastlingMove(p, s, e) then
        var rookFrom := Sq(s.row, RookFromCol(s, e));
        var rook := At(b, rookFrom).value;
        Put(Put(b, Sq(s.row, RookToCol(s, e)), Some(rook.(hasMoved := true))), rookFrom, None)
      else b;
    Put(Put(withRook, e, Some(p.(hasMoved := true))), s, None)
  }

  /**
    move_piece: parse both squares, validate, apply (castling also relocates
    the rook after re-checking it), record, and pass the turn.
  */
  function MovePiece(g: Game, startText: string, endText: string): (r: MoveResult)
    ensures !r.success ==> r.game == g
    ensures r.success <==>
      && ParsePosition(startText).Some? && ParsePosition(endText).Some?
      && IsValidMove(g, ParsePosition(startText).value, ParsePosition(endText).value) == Legal
    ensures ParsePosition(startText).None? || ParsePosition(endText).None? ==>
      r.message == Message(InvalidInput)
    ensures ParsePosition(startText).Some? && ParsePosition(endText).Some? ==>
      var v := IsValidMove(g, ParsePosition(startText).value, ParsePosition(endText).value);
      v.Illegal? ==> r.message == Message(v.reason)
    ensures r.success ==>
      && r.message == MoveSuccessful
      && r.game.turn == Opponent(g.turn)
      && |r.game.history| == |g.history| + 1
      && r.game.history[..|g.history|] == g.history
  {
    var start, end := ParsePosition(startText), ParsePosition(endText);
    if start.None? || end.None? then MoveResult(false, Message(InvalidInput), g)
    else
      var s, e := start.value, end.value;
      var verdict := IsValidMove(g, s, e);
      if verdict.Illegal? then MoveResult(false, Message(verdict.reason), g)
      else
        var piece := At(g.board, s).value;
        var captured := At(g.board, e);
        if IsCastlingMove(piece, s, e) && RookGone(At(g.board, Sq(s.row, RookFromCol(s, e)))) then
          MoveResult(false, Message(CastlingNotAllowed), g)
        else
          var entry := Describe(MoveRecord(piece.kind, startText, endText, CapturedKind(captured)));
          MoveResult(true, MoveSuccessful, Game(MovedBoard(g.board, s, e), Opponent(g.turn), g.history + [entry]))
  }

  /** The game after a sequence of (start, end) commands; refused commands change nothing. */
  function Play(g: Game, moves: seq<(string, string)>): (r: Game)
    ensures |g.history| <= |r.history| <= |g.history| + |moves|
    ensures r.history[..|g.history|] == g.history
    decreases |moves|
  {
    if |moves| == 0 then g
    else Play(MovePiece(g, moves[0].0, moves[0].1).game, moves[1..])
  }
}

=== FILE: game_facts.dfy ===
/**
  What a successful `move_piece` does to the board, the piece counts and the
  history, and the invariants every game reachable from the initial placement
  keeps.
*/
module GameFacts {
  import opened Wrappers
  import opened Board
  import opened Pieces
  import opened Notation
  import opened Refusals
  import opened ChessGame

  /** Unfolds a successful move_piece into its parsed squares, its verdict and the game it produces. */
  lemma SuccessShape(g: Game, startText: string, endText: string)
    requires MovePiece(g, startText, endText).success
    ensures ParsePosition(startText).Some? && ParsePosition(endText).Some?
    ensures
      var s, e := ParsePosition(startText).value, ParsePosition(endText).value;
      && IsValidMove(g, s, e) == Legal
      && var p := At(g.board, s).value;
      && (IsCastlingMove(p, s, e) ==>
        && InBounds(Sq(s.row, RookFromCol(s, e))) && InBounds(Sq(s.row, RookToCol(s, e)))
        && Castling(g.board, p.hasMoved, s, e)
        && At(g.board, Sq(s.row, RookFromCol(s, e))).Some?)
      && MovePiece(g, startText, endText).game == Game(
        MovedBoard(g.board, s, e), Opponent(g.turn),
        g.history + [Describe(MoveRecord(p.kind, startText, endText, CapturedKind(At(g.board, e))))])
  {
  }

  /**
    A successful move empties the start square, puts the mover (now marked as
    moved) on the end square, and, when castling, moves the unmoved rook to the
    square the king passed over, also marked as moved; no other cell changes.
    The history gains exactly the entry describing the move.
  */
  lemma MoveEffect(g: Game, startText: string, endText: string)
    requires MovePiece(g, startText, endText).success
    ensures
      var g', s, e := MovePiece(g, startText, endText).game, ParsePosition(startText).value, ParsePosition(endText).value;
      var p := At(g.board, s).value;
      && p.color == g.turn
      && At(g'.board, s) == None
      && At(g'.board, e) == Some(p.(hasMoved := true))
      && (forall q :: InBounds(q) && !Touched(p, s, e, q) ==> At(g'.board, q) == At(g.board, q))
      && g'.history == g.history + [Describe(MoveRecord(p.kind, startText, endText, CapturedKind(At(g.board, e))))]
    ensures
      var g', s, e := MovePiece(g, startText, endText).game, ParsePosition(startText).value, ParsePosition(endText).value;
      var p := At(g.board, s).value;
      IsCastlingMove(p, s, e) ==>
        var rookFrom, rookTo := Sq(s.row, RookFromCol(s, e)), Sq(s.row, RookToCol(s, e));
        && InBounds(rookFrom) && InBounds(rookTo)
        && !p.hasMoved && e.row == s.row
        && At(g.board, e).None? && At(g.board, rookTo).None?
        && UnmovedRook(At(g.board, rookFrom))
        && At(g'.board, rookFrom) == None
        && At(g'.board, rookTo) == Some(At(g.board, rookFrom).value.(hasMoved := true))
  {
    SuccessShape(g, startText, endText);
  }

  /** The side that moved keeps all its pieces; the other side loses one exactly when a piece was captured. */
  lemma MoveCounts(g: Game, startText: string, endText: string)
    requires MovePiece(g, startText, endText).success
    ensures
      var g', e := MovePiece(g, startText, endText).game, ParsePosition(endText).value;
      && Count(g'.board, g.turn) == Count(g.board, g.turn)
      && Count(g'.board, Opponent(g.turn)) == Count(g.board, Opponent(g.turn)) - (if At(g.board, e).Some? then 1 else 0)
  {
    SuccessShape(g, startText, endText);
    var s, e := ParsePosition(startText).value, ParsePosition(endText).value;
    var b := g.board;
    assert !OwnPiece(b, e, g.turn);
    if IsCastlingMove(At(b, s).value, s, e) {
      assert At(b, Sq(s.row, RookToCol(s, e))).None?;
    }
    MovedBoardCounts(b, s, e, g.turn);
    MovedBoardCounts(b, s, e, Opponent(g.turn));
  }

  /**
    Moving a piece (and, when castling, its rook onto an empty square) keeps
    every colour's count except for the piece that stood on the end square.
  */
  lemma MovedBoardCounts(b: Board, s: Square, e: Square, c: Color)
    requires InBounds(s) && InBounds(e) && s != e && At(b, s).Some?
    requires IsCastlingMove(At(b, s).value, s, e) ==>
      && InBounds(Sq(s.row, RookFromCol(s, e))) && InBounds(Sq(s.row, RookToCol(s, e)))
      && At(b, Sq(s.row, RookFromCol(s, e))).Some?
      && At(b, Sq(s.row, RookToCol(s, e))).None?
    ensures Count(MovedBoard(b, s, e), c) == Count(b, c) - Mark(At(b, e), c)
  {
    var p := At(b, s).value;
    var moved := Some(p.(hasMoved := true));
    if IsCastlingMove(p, s, e) {
      var rookFrom, rookTo := Sq(s.row, RookFromCol(s, e)), Sq(s.row, RookToCol(s, e));
      var rook := At(b, rookFrom).value;
      var b1 := Put(b, rookTo, Some(rook.(hasMoved := true)));
      var b2 := Put(b1, rookFrom, None);
      var b3 := Put(b2, e, moved);
      CountPut(b, rookTo, Some(rook.(hasMoved := true)), c);
      CountPut(b1, rookFrom, None, c);
      CountPut(b2, e, moved, c);
      CountPut(b3, s, None, c);
    } else {
      var b3 := Put(b, e, moved);
      CountPut(b, e, moved, c);
      CountPut(b3, s, None, c);
    }
  }

  /** Every piece that has never moved stands where the initial placement put it. */
  ghost predicate UnmovedAtHome(b: Board) {
    forall q :: InBounds(q) && At(b, q).Some? && !At(b, q).value.hasMoved ==> At(b, q) == InitialCell(q.row, q.col)
  }

  /** The invariant of every game reachable from the initial placement. */
  ghost predicate Inv(g: Game) {
    && (g.turn == White <==> |g.history| % 2 == 0)
    && UnmovedAtHome(g.board)
    && Count(g.board, White) <= 16
    && Count(g.board, Black) <= 16
  }

  lemma InitialInv()
    ensures Inv(Initial())
  {
  }

  /** A board each of whose changed cells is empty or holds a moved piece keeps UnmovedAtHome. */
  lemma UnmovedAtHomeKept(b: Board, b': Board)
    requires UnmovedAtHome(b)
    requires forall q :: InBounds(q) ==> At(b', q) == At(b, q) || At(b', q).None? || At(b', q).value.hasMoved
    ensures UnmovedAtHome(b')
  {
  }

  /** A move only ever writes empty cells and moved pieces, so unmoved pieces stay at home. */
  lemma MoveKeepsUnmovedAtHome(g: Game, startText: string, endText: string)
    requires UnmovedAtHome(g.board)
    ensures UnmovedAtHome(MovePiece(g, startText, endText).game.board)
  {
    var r := MovePiece(g, startText, endText);
    if r.success {
      MoveEffect(g, startText, endText);
      var b, b' := g.board, r.game.board;
      var s, e := ParsePosition(startText).value, ParsePosition(endText).value;
      var p := At(b, s).value;
      forall q | InBounds(q)
        ensures At(b', q) == At(b, q) || At(b', q).None? || At(b', q).value.hasMoved
      {
        if !Touched(p, s, e, q) {
          assert At(b', q) == At(b, q);
        }
      }
      UnmovedAtHomeKept(b, b');
    }
  }

  /** Every move command, accepted or not, keeps the invariant. */
  lemma MoveKeepsInv(g: Game, startText: string, endText: string)
    requires Inv(g)
    ensures Inv(MovePiece(g, startText, endText).game)
  {
    var r := MovePiece(g, startText, endText);
    MoveKeepsUnmovedAtHome(g, startText, endText);
    if r.success {
      MoveCounts(g, startText, endText);
      InvAfterTurn(g, r.game);
    }
  }

  /** The invariant passes to a game one turn later that kept its unmoved pieces home and lost no count. */
  lemma InvAfterTurn(g: Game, g': Game)
    requires Inv(g) && UnmovedAtHome(g'.board)
    requires g'.turn == Opponent(g.turn) && |g'.history| == |g.history| + 1
    requires Count(g'.board, White) <= Count(g.board, White) && Count(g'.board, Black) <= Count(g.board, Black)
    ensures Inv(g')
  {
  }

  lemma {:induction false} PlayKeepsInv(g: Game, moves: seq<(string, string)>)
    requires Inv(g)
    ensures Inv(Play(g, moves))
    decreases |moves|
  {
    if |moves| > 0 {
      MoveKeepsInv(g, moves[0].0, moves[0].1);
      PlayKeepsInv(MovePiece(g, moves[0].0, moves[0].1).game, moves[1..]);
    }
  }

  /**
    In every game played from the initial placement, White is to move exactly
    when the history has even length, each side has at most sixteen pieces,
    and every unmoved piece is on its starting square.
  */
  lemma Reachable(moves: seq<(string, string)>)
    ensures var g := Play(Initial(), moves);
      && (g.turn == White <==> |g.history| % 2 == 0)
      && Count(g.board, White) <= 16 && Count(g.board, Black) <= 16
      && UnmovedAtHome(g.board)
  {
    InitialInv();
    PlayKeepsInv(Initial(), moves);
  }

  /**
    In a reachable game an unmoved king stands on e1 or e8, so the castling
    rook squares three columns right and four columns left are on the board.
  */
  lemma UnmovedKingAtHome(g: Game, q: Square)
    requires Inv(g) && InBounds(q)
    requires At(g.board, q).Some? && At(g.board, q).value.kind == King && !At(g.board, q).value.hasMoved
    ensures q == KingHome(At(g.board, q).value.color)
    ensures 0 <= q.col - 4 && q.col + 3 < 8
  {
  }

  /**
    In a reachable game an unmoved Rook on the row of an unmoved king belongs
    to the king's side, so the rook castling finds is always the mover's own.
  */
  lemma CastlingRookIsOwn(g: Game, s: Square, q: Square)
    requires Inv(g) && InBounds(s) && InBounds(q)
    requires At(g.board, s).Some? && At(g.board, s).value.kind == King && !At(g.board, s).value.hasMoved
    requires q.row == s.row && UnmovedRook(At(g.board, q))
    ensures At(g.board, q).value.color == At(g.board, s).value.color
  {
    UnmovedKingAtHome(g, s);
  }

  /**
    Texts that parse always name squares on the board, so a command whose both
    texts parse is never refused as out of bounds.
  */
  lemma ParsedNeverOutOfBounds(g: Game, startText: string, endText: string)
    requires ParsePosition(startText).Some? && ParsePosition(endText).Some?
    ensures MovePiece(g, startText, endText).message != Message(OutOfBounds)
  {
    var r := MovePiece(g, startText, endText);
    var v := IsValidMove(g, ParsePosition(startText).value, ParsePosition(endText).value);
    if v.Illegal? {
      MessageIdentifiesReason(v.reason, OutOfBounds);
    } else {
      MessageIdentifiesReason(OutOfBounds, OutOfBounds);
    }
  }
}

=== FILE: notation.dfy ===
/**
  Text forms used by the game: two-character square names such as "e2"
  (`parse_position`) and the move records appended to the history.
*/
module Notation {
  import opened Wrappers
  import opened Board

  /**
    parse_position: exactly two characters, a file letter 'a'..'h' then a
    rank digit '1'..'8', giving (rank - 1, file - 'a'); anything else is None.
  */
  function ParsePosition(t: string): (r: Option<Square>)
    ensures r.Some? <==> |t| == 2 && 'a' <= t[0] <= 'h' && '1' <= t[1] <= '8'
    ensures r.Some? ==> InBounds(r.value)
    ensures r.Some? ==> r.value == Sq(t[1] as int - '1' as int, t[0] as int - 'a' as int)
  {
    if |t| != 2 then None
    else
      var colChar, rowChar := t[0], t[1];
      CharRange("abcdefgh", 'a', colChar);
      CharRange("12345678", '1', rowChar);
      if colChar !in "abcdefgh" || rowChar !in "12345678" then None
      else Some(Sq(rowChar as int - '1' as int, colChar as int - 'a' as int))
  }

  /** Membership in a run of consecutive characters is a range test. */
  lemma CharRange(run: string, first: char, ch: char)
    requires forall i :: 0 <= i < |run| ==> run[i] as int == first as int + i
    ensures ch in run <==> first as int <= ch as int < first as int + |run|
  {
    if first as int <= ch as int < first as int + |run| {
      assert run[ch as int - first as int] == ch;
    }
  }

  /** The two-character name of an on-board square. */
  function SquareName(q: Square): (t: string)
    requires InBounds(q)
    ensures |t| == 2
  {
    [('a' as int + q.col) as char, ('1' as int + q.row) as char]
  }

  /** Parsing the name of any square gives back that square. */
  lemma ParseSquareName(q: Square)
    requires InBounds(q)
    ensures ParsePosition(SquareName(q)) == Some(q)
  {
  }

  /** Every text that parses is the name of the square it denotes. */
  lemma SquareNameOfParse(t: string)
    requires ParsePosition(t).Some?
    ensures SquareName(ParsePosition(t).value) == t
  {
  }

  /** The facts one entry of the move history records. */
  datatype MoveRecord = MoveRecord(kind: Kind, fromText: string, toText: string, captured: Option<Kind>)

  /** " capturing <name>" after a capture, nothing otherwise. */
  function CaptureSuffix(captured: Option<Kind>): string {
    if captured.Some? then " capturing " + Name(captured.value) else ""
  }

  /** The kind whose name is exactly `t`. */
  function KindNamed(t: string): (r: Option<Kind>)
    ensures r.Some? ==> Name(r.value) == t
  {
    if t == "Pawn" then Some(Pawn)
    else if t == "Rook" then Some(Rook)
    else if t == "Knight" then Some(Knight)
    else if t == "Bishop" then Some(Bishop)
    else if t == "Queen" then Some(Queen)
    else if t == "King" then Some(King)
    else None
  }

  /** How a history entry for a move of kind `k` begins: "<name> from ". */
  function Heading(k: Kind): string {
    Name(k) + " from "
  }

  /** The kind whose heading begins `t`, trying the kinds in declaration order. */
  function LeadingKind(t: string): (r: Option<Kind>)
    ensures r.Some? ==> Heading(r.value) <= t
    ensures r.None? ==> forall k :: !(Heading(k) <= t)
  {
    if Heading(Pawn) <= t then Some(Pawn)
    else if Heading(Rook) <= t then Some(Rook)
    else if Heading(Knight) <= t then Some(Knight)
    else if Heading(Bishop) <= t then Some(Bishop)
    else if Heading(Queen) <= t then Some(Queen)
    else if Heading(King) <= t then Some(King)
    else None
  }

  /** Reads a history entry back into its parts, for entries whose squares are two characters. */
  function ParseRecord(t: string): Option<MoveRecord> {
    match LeadingKind(t)
    case None => None
    case Some(k) =>
      var rest := t[|Heading(k)|..];
      if |rest| < 8 || rest[2..6] != " to " then None
      else
        var tail := rest[8..];
        if tail == "" then Some(MoveRecord(k, rest[..2], rest[6..8], None))
        else if " capturing " <= tail then
          match KindNamed(tail[11..])
          case None => None
          case Some(cap) => Some(MoveRecord(k, rest[..2], rest[6..8], Some(cap)))
        else None
  }

  lemma KindNamedName(k: Kind)
    ensures KindNamed(Name(k)) == Some(k)
  {
  }

  /** A string that differs from `t` in one of its first two characters is not a prefix of `t`. */
  lemma NotPrefix(a: string, t: string)
    requires |a| >= 2 && |t| >= 2 && (a[0] != t[0] || a[1] != t[1])
    ensures !(a <= t)
  {
  }

  /** No heading is a prefix of another kind's heading, so the entry's heading names the piece that moved. */
  lemma LeadingKindOf(k: Kind, rest: string)
    ensures LeadingKind(Heading(k) + rest) == Some(k)
  {
    var t := Heading(k) + rest;
    assert Heading(k) <= t;
    assert t[0] == Name(k)[0] && t[1] == Name(k)[1];
    match k
    case Pawn =>
    case Rook =>
      NotPrefix(Heading(Pawn), t);
    case Knight =>
      NotPrefix(Heading(Pawn), t);
      NotPrefix(Heading(Rook), t);
    case Bishop =>
      NotPrefix(Heading(Pawn), t);
      NotPrefix(Heading(Rook), t);
      NotPrefix(Heading(Knight), t);
    case Queen =>
      NotPrefix(Heading(Pawn), t);
      NotPrefix(Heading(Rook), t);
      NotPrefix(Heading(Knight), t);
      NotPrefix(Heading(Bishop), t);
    case King =>
      NotPrefix(Heading(Pawn), t);
      NotPrefix(Heading(Rook), t);
      NotPrefix(Heading(Knight), t);
      NotPrefix(Heading(Bishop), t);
      NotPrefix(Heading(Queen), t);
  }

  /** Any text laid out as a history entry with two-character squares reads back as its parts. */
  lemma RecordRoundTrip(m: MoveRecord, t: string)
    requires |m.fromText| == 2 && |m.toText| == 2
    requires t == Name(m.kind) + " from " + m.fromText + " to " + m.toText + CaptureSuffix(m.captured)
    ensures ParseRecord(t) == Some(m)
  {
    var suffix := CaptureSuffix(m.captured);
    var rest := m.fromText + " to " + m.toText + suffix;
    assert t == Heading(m.kind) + rest;
    LeadingKindOf(m.kind, rest);
    assert t[|Heading(m.kind)|..] == rest;
    SquaresPart(m.fromText, m.toText, suffix);
    CaptureSuffixParts(m.captured);
  }

  /** After the heading, the two square texts sit around " to ", and whatever follows starts at index 8. */
  lemma SquaresPart(fromText: string, toText: string, suffix: string)
    requires |fromText| == 2 && |toText| == 2
    ensures var rest := fromText + " to " + toText + suffix;
      && |rest| >= 8 && rest[2..6] == " to "
      && rest[..2] == fromText && rest[6..8] == toText && rest[8..] == suffix
  {
    var rest := fromText + " to " + toText + suffix;
    assert rest[2..6] == " to ";
    assert rest[..2] == fromText;
    assert rest[6..8] == toText;
    assert rest[8..] == suffix;
  }

  /** The capture suffix is empty for a quiet move and names the captured kind otherwise. */
  lemma CaptureSuffixParts(captured: Option<Kind>)
    ensures captured.None? ==> CaptureSuffix(captured) == ""
    ensures captured.Some? ==>
      && " capturing " <= CaptureSuffix(captured)
      && CaptureSuffix(captured) != ""
      && KindNamed(CaptureSuffix(captured)[11..]) == captured
  {
    if captured.Some? {
      assert CaptureSuffix(captured)[11..] == Name(captured.value);
      KindNamedName(captured.value);
    }
  }

  /**
    The history entry "<name> from <start> to <end>", plus " capturing <name>"
    after a capture. With two-character squares, as move_piece records them,
    the entry determines the move it records.
  */
  function Describe(m: MoveRecord): (t: string)
    ensures |m.fromText| == 2 && |m.toText| == 2 ==> ParseRecord(t) == Some(m)
  {
    var t := Name(m.kind) + " from " + m.fromText + " to " + m.toText + CaptureSuffix(m.captured);
    if |m.fromText| == 2 && |m.toText| == 2 then
      RecordRoundTrip(m, t);
      t
    else
      t
  }
}

=== FILE: pieces.dfy ===
/**
  The movement predicates of the six piece kinds (`can_move` in testchess.py).
  Each is a pure function of the board, the mover's colour (Python's `self`),
  a start square and an end square; it checks the move's shape and path only,
  never turn order or check.
*/
module Pieces {
  import opened Wrappers
  import opened Board

  /** Row direction in which pawns of colour `c` advance. */
  function Forward(c: Color): int {
    if c == White then 1 else -1
  }

  /** The row pawns of colour `c` start on, the only row a double step may start from. */
  function PawnHomeRow(c: Color): int {
    if c == White then 1 else 6
  }

  // ----- Pawn -----

  /** One step straight ahead onto an empty square. */
  predicate PawnStep(b: Board, c: Color, s: Square, e: Square)
    requires InBounds(s) && InBounds(e)
  {
    e.col == s.col && e.row == s.row + Forward(c) && At(b, e).None?
  }

  /** Two steps straight ahead from the home row, across and onto empty squares. */
  predicate PawnDoubleStep(b: Board, c: Color, s: Square, e: Square)
    requires InBounds(s) && InBounds(e)
  {
    && e.col == s.col
    && s.row == PawnHomeRow(c)
    && e.row == s.row + 2 * Forward(c)
    && At(b, Sq(s.row + Forward(c), s.col)).None?
    && At(b, e).None?
  }

  /** One step diagonally ahead onto an opposing piece. */
  predicate PawnCapture(b: Board, c: Color, s: Square, e: Square)
    requires InBounds(s) && InBounds(e)
  {
    Abs(e.col - s.col) == 1 && e.row == s.row + Forward(c) && OwnPiece(b, e, Opponent(c))
  }

  /** Pawn.can_move: a pawn only advances, and only a diagonal step may capture. */
  predicate PawnCanMove(b: Board, c: Color, s: Square, e: Square)
    requires InBounds(s) && InBounds(e)
    ensures PawnCanMove(b, c, s, e) <==>
      PawnStep(b, c, s, e) || PawnDoubleStep(b, c, s, e) || PawnCapture(b, c, s, e)
    ensures PawnCanMove(b, c, s, e) ==>
      e.row == s.row + Forward(c) || (e.row == s.row + 2 * Forward(c) && s.row == PawnHomeRow(c))
    ensures PawnCanMove(b, c, s, e) && e.col == s.col ==> At(b, e).None?
  {
    var dir := Forward(c);
    || (s.col == e.col &&
        if e.row == s.row + dir then At(b, e).None?
        else
          && e.row == s.row + 2 * dir
          && ((c == White && s.row == 1) || (c == Black && s.row == 6))
          && At(b, Sq(s.row + dir, s.col)).None? && At(b, e).None?)
    || (Abs(e.col - s.col) == 1 && e.row == s.row + dir && At(b, e).Some? && At(b, e).value.color != c)
  }

  // ----- Rook -----

  /** `j` is one of the values of Python's `range(from, stop, step)` for a step of 1 or -1. */
  predicate InRange(from: int, stop: int, step: int, j: int) {
    if step == 1 then from <= j < stop else stop < j <= from
  }

  /**
    The Rook's scan loop over one line of eight cells: true iff no index that
    `range(i, stop, step)` visits holds a piece.
  */
  function ScanLine(line: seq<Cell>, i: int, stop: int, step: int): (clear: bool)
    requires |line| == 8 && 0 <= stop < 8
    requires step == 1 || step == -1
    requires step == 1 ==> 0 <= i
    requires step == -1 ==> i < 8
    ensures clear <==> forall j :: InRange(i, stop, step, j) ==> line[j].None?
    decreases if step == 1 then stop - i else i - stop
  {
    if InRange(i, stop, step, i) then line[i].None? && ScanLine(line, i + step, stop, step)
    else true
  }

  /** Column `col` of the board as a line of eight cells. */
  function Column(b: Board, col: int): (line: seq<Cell>)
    requires 0 <= col < 8
    ensures |line| == 8
    ensures forall r :: 0 <= r < 8 ==> line[r] == At(b, Sq(r, col))
  {
    seq(8, r requires 0 <= r < 8 => b[r][col])
  }

  /** Python's `range(from + step, to, step)` visits exactly the values strictly between. */
  lemma RangeIsBetween(from: int, to: int, step: int, j: int)
    requires step == (if to > from then 1 else -1)
    ensures InRange(from + step, to, step, j) <==> Between(from, j, to)
  {
  }

  /** Rook.can_move */
  predicate RookCanMove(b: Board, c: Color, s: Square, e: Square)
    requires InBounds(s) && InBounds(e)
    ensures RookCanMove(b, c, s, e) <==>
      (s.row == e.row || s.col == e.col) && LineClear(b, s, e) && !OwnPiece(b, e, c)
  {
    if s.row != e.row && s.col != e.col then false
    else if s.row == e.row then
      var step := if e.col > s.col then 1 else -1;
      RowScanIsLineClear(b, s, e);
      ScanLine(b[s.row], s.col + step, e.col, step) && !OwnPiece(b, e, c)
    else
      var step := if e.row > s.row then 1 else -1;
      ColumnScanIsLineClear(b, s, e);
      ScanLine(Column(b, s.col), s.row + step, e.row, step) && !OwnPiece(b, e, c)
  }

  lemma RowScanIsLineClear(b: Board, s: Square, e: Square)
    requires InBounds(s) && InBounds(e) && s.row == e.row
    ensures var step := if e.col > s.col then 1 else -1;
      ScanLine(b[s.row], s.col + step, e.col, step) <==> LineClear(b, s, e)
  {
    var step := if e.col > s.col then 1 else -1;
    forall j ensures InRange(s.col + step, e.col, step, j) <==> Between(s.col, j, e.col) {
      RangeIsBetween(s.col, e.col, step, j);
    }
    if ScanLine(b[s.row], s.col + step, e.col, step) {
      forall q | InBounds(q) && OnLineBetween(s, e, q) ensures At(b, q).None? {
        assert InRange(s.col + step, e.col, step, q.col);
      }
    }
    if LineClear(b, s, e) {
      forall j | InRange(s.col + step, e.col, step, j) ensures b[s.row][j].None? {
        assert OnLineBetween(s, e, Sq(s.row, j));
      }
    }
  }

  lemma ColumnScanIsLineClear(b: Board, s: Square, e: Square)
    requires InBounds(s) && InBounds(e) && s.row != e.row && s.col == e.col
    ensures var step := if e.row > s.row then 1 else -1;
      ScanLine(Column(b, s.col), s.row + step, e.row, step) <==> LineClear(b, s, e)
  {
    var step := if e.row > s.row then 1 else -1;
    var line := Column(b, s.col);
    forall j ensures InRange(s.row + step, e.row, step, j) <==> Between(s.row, j, e.row) {
      RangeIsBetween(s.row, e.row, step, j);
    }
    if ScanLine(line, s.row + step, e.row, step) {
      forall q | InBounds(q) && OnLineBetween(s, e, q) ensures At(b, q).None? {
        assert InRange(s.row + step, e.row, step, q.row);
      }
    }
    if LineClear(b, s, e) {
      forall j | InRange(s.row + step, e.row, step, j) ensures line[j].None? {
        assert OnLineBetween(s, e, Sq(j, s.col));
      }
    }
  }

  // ----- Knight -----

  /** The eight (row, column) displacements of a knight's jump. */
  const KnightOffsets: set<(int, int)> :=
    {(1, 2), (2, 1), (-1, 2), (-2, 1), (1, -2), (2, -1), (-1, -2), (-2, -1)}

  /** Knight.can_move */
  predicate KnightCanMove(b: Board, c: Color, s: Square, e: Square)
    requires InBounds(s) && InBounds(e)
    ensures KnightCanMove(b, c, s, e) <==> (e.row - s.row, e.col - s.col) in KnightOffsets && !OwnPiece(b, e, c)
  {
    var rowDiff := Abs(e.row - s.row);
    var colDiff := Abs(e.col - s.col);
    if (rowDiff == 2 && colDiff == 1) || (rowDiff == 1 && colDiff == 2) then
      var target := At(b, e);
      target.None? || target.value.color != c
    else false
  }

  /** Only the destination cell matters to a knight: boards that agree there give the same answer. */
  lemma KnightIgnoresPath(b: Board, b': Board, c: Color, s: Square, e: Square)
    requires InBounds(s) && InBounds(e)
    requires At(b, e) == At(b', e)
    ensures KnightCanMove(b, c, s, e) == KnightCanMove(b', c, s, e)
  {
  }

  // ----- Bishop -----

  /** `x` lies between `a` (inclusive) and `z` (exclusive), in either order. */
  predicate HalfOpen(a: int, x: int, z: int) {
    a <= x < z || z < x <= a
  }

  /** `q` is on the diagonal walk from `from` (inclusive) towards `e` (exclusive). */
  predicate OnDiagonalWalk(from: Square, e: Square, q: Square) {
    && HalfOpen(from.row, q.row, e.row)
    && HalfOpen(from.col, q.col, e.col)
    && Abs(q.row - from.row) == Abs(q.col - from.col)
  }

  /** Steps of ±1 from (r, c) reach `e` on both coordinates at once. */
  predicate DiagonalHeading(r: int, c: int, rs: int, cs: int, e: Square) {
    && (rs == 1 || rs == -1) && (cs == 1 || cs == -1)
    && (if rs == 1 then r <= e.row else e.row <= r)
    && (if cs == 1 then c <= e.col else e.col <= c)
    && Abs(e.row - r) == Abs(e.col - c)
  }

  /**
    The Bishop's `while r != end_row and c != end_col` loop: true iff every
    square it visits on its way to `e` is empty.
  */
  function ScanDiagonal(b: Board, r: int, c: int, rs: int, cs: int, e: Square): (clear: bool)
    requires InBounds(Sq(r, c)) && InBounds(e)
    requires DiagonalHeading(r, c, rs, cs, e)
    ensures clear <==> forall q :: InBounds(q) && OnDiagonalWalk(Sq(r, c), e, q) ==> At(b, q).None?
    decreases Abs(e.row - r)
  {
    if r != e.row && c != e.col then
      DiagonalWalkStep(r, c, rs, cs, e);
      b[r][c].None? && ScanDiagonal(b, r + rs, c + cs, rs, cs, e)
    else
      true
  }

  /** The walk from (r, c) is its first square followed by the walk from the next square. */
  lemma DiagonalWalkStep(r: int, c: int, rs: int, cs: int, e: Square)
    requires DiagonalHeading(r, c, rs, cs, e) && r != e.row && c != e.col
    ensures DiagonalHeading(r + rs, c + cs, rs, cs, e)
    ensures forall q :: OnDiagonalWalk(Sq(r, c), e, q) <==>
      q == Sq(r, c) || OnDiagonalWalk(Sq(r + rs, c + cs), e, q)
  {
  }

  /** Starting one step from `s`, the walk covers exactly the squares strictly between `s` and `e`. */
  lemma DiagonalWalkIsBetween(s: Square, e: Square, q: Square)
    requires s != e && Abs(e.row - s.row) == Abs(e.col - s.col)
    ensures var rs, cs := (if e.row > s.row then 1 else -1), (if e.col > s.col then 1 else -1);
      OnDiagonalWalk(Sq(s.row + rs, s.col + cs), e, q) <==> OnDiagonalBetween(s, e, q)
  {
  }

  /** Bishop.can_move */
  predicate BishopCanMove(b: Board, c: Color, s: Square, e: Square)
    requires InBounds(s) && InBounds(e) && s != e
    ensures BishopCanMove(b, c, s, e) <==>
      Abs(e.row - s.row) == Abs(e.col - s.col) && DiagonalClear(b, s, e) && !OwnPiece(b, e, c)
  {
    var rowDiff := Abs(e.row - s.row);
    var colDiff := Abs(e.col - s.col);
    if rowDiff != colDiff then false
    else
      var rs := if e.row > s.row then 1 else -1;
      var cs := if e.col > s.col then 1 else -1;
      forall q ensures OnDiagonalWalk(Sq(s.row + rs, s.col + cs), e, q) <==> OnDiagonalBetween(s, e, q) {
        DiagonalWalkIsBetween(s, e, q);
      }
      var target := At(b, e);
      ScanDiagonal(b, s.row + rs, s.col + cs, rs, cs, e) && (target.None? || target.value.color != c)
  }

  // ----- Queen -----

  /** Queen.can_move: a Rook move or a Bishop move for a piece of the queen's colour. */
  predicate QueenCanMove(b: Board, c: Color, s: Square, e: Square)
    requires InBounds(s) && InBounds(e) && s != e
    ensures QueenCanMove(b, c, s, e) <==>
      && !OwnPiece(b, e, c)
      && (|| ((s.row == e.row || s.col == e.col) && LineClear(b, s, e))
          || (Abs(e.row - s.row) == Abs(e.col - s.col) && DiagonalClear(b, s, e)))
  {
    RookCanMove(b, c, s, e) || BishopCanMove(b, c, s, e)
  }

  // ----- King -----

  /** An unmoved Rook of either colour. */
  predicate UnmovedRook(x: Cell) {
    x.Some? && x.value.kind == Rook && !x.value.hasMoved
  }

  /**
    Kingside castling room: an unmoved Rook three columns to the right and the
    two squares between empty. A rook square off the board counts as no rook.
  */
  predicate KingsideRoom(b: Board, s: Square)
    requires InBounds(s)
  {
    && s.col + 3 < 8
    && UnmovedRook(At(b, Sq(s.row, s.col + 3)))
    && At(b, Sq(s.row, s.col + 1)).None?
    && At(b, Sq(s.row, s.col + 2)).None?
  }

  /** Queenside castling room: an unmoved Rook four columns to the left and the three squares between empty. */
  predicate QueensideRoom(b: Board, s: Square)
    requires InBounds(s)
  {
    && s.col - 4 >= 0
    && UnmovedRook(At(b, Sq(s.row, s.col - 4)))
    && At(b, Sq(s.row, s.col - 1)).None?
    && At(b, Sq(s.row, s.col - 2)).None?
    && At(b, Sq(s.row, s.col - 3)).None?
  }

  /** A castling move of an unmoved king: two columns along its row, with room on that side. */
  predicate Castling(b: Board, kingMoved: bool, s: Square, e: Square)
    requires InBounds(s)
  {
    && !kingMoved
    && e.row == s.row
    && ((e.col == s.col + 2 && KingsideRoom(b, s)) || (e.col == s.col - 2 && QueensideRoom(b, s)))
  }

  /** King.can_move: one square in any direction, or castling. */
  predicate KingCanMove(b: Board, c: Color, kingMoved: bool, s: Square, e: Square)
    requires InBounds(s) && InBounds(e)
    ensures KingCanMove(b, c, kingMoved, s, e) <==>
      Castling(b, kingMoved, s, e) ||
      (Abs(e.row - s.row) <= 1 && Abs(e.col - s.col) <= 1 && s != e && !OwnPiece(b, e, c))
    ensures KingCanMove(b, c, kingMoved, s, e) && Abs(e.col - s.col) == 2 ==> Castling(b, kingMoved, s, e)
  {
    var rowDiff := Abs(e.row - s.row);
    var colDiff := Abs(e.col - s.col);
    var castle :=
      rowDiff == 0 && colDiff == 2 && !kingMoved &&
      if e.col == s.col + 2 then KingsideRoom(b, s)
      else e.col == s.col - 2 && QueensideRoom(b, s);
    var target := At(b, e);
    castle || (Max(rowDiff, colDiff) == 1 && (target.None? || target.value.color != c))
  }

  function Max(x: int, y: int): int {
    if x < y then y else x
  }

  // ----- Dispatch -----

  /** `piece.can_move(board, start, end)` for the piece `p` standing on `s`. */
  predicate CanMove(b: Board, p: Piece, s: Square, e: Square)
    requires InBounds(s) && InBounds(e) && s != e
    ensures CanMove(b, p, s, e) ==> !OwnPiece(b, e, p.color)
  {
    match p.kind
    case Pawn => PawnCanMove(b, p.color, s, e)
    case Rook => RookCanMove(b, p.color, s, e)
    case Knight => KnightCanMove(b, p.color, s, e)
    case Bishop => BishopCanMove(b, p.color, s, e)
    case Queen => QueenCanMove(b, p.color, s, e)
    case King => KingCanMove(b, p.color, p.hasMoved, s, e)
  }
}

=== FILE: refusals.dfy ===
/**
  Why `is_valid_move` or `move_piece` refuses a move, and the exact text each
  refusal is reported with; different refusals always read differently.
*/
module Refusals {
  import opened Board

  /** Why a move was refused; `Message` gives the source's wording. */
  datatype Refusal =
    | InvalidInput
    | OutOfBounds
    | NoPiece
    | WrongTurn(turn: Color)
    | SameSquare
    | IllegalShape(kind: Kind)
    | CastlingNotAllowed

  /** The characters at positions 0, 1, 2 and 6 of a text; they tell all the messages apart. */
  function Key(t: string): (char, char, char, char)
    requires |t| >= 7
  {
    (t[0], t[1], t[2], t[6])
  }

  /** The key of each refusal's message; distinct reasons have distinct keys. */
  function ReasonKey(r: Refusal): (char, char, char, char) {
    match r
    case InvalidInput => ('I', 'n', 'v', 'd')
    case OutOfBounds => ('P', 'o', 's', 'o')
    case NoPiece => ('N', 'o', ' ', 'c')
    case WrongTurn(t) => ('I', 't', ' ', if t == White then 'w' else 'b')
    case SameSquare => ('C', 'a', 'n', ' ')
    case IllegalShape(k) => (
      match k
      case Pawn => ('P', 'a', 'w', 'a')
      case Rook => ('R', 'o', 'o', 'a')
      case Knight => ('K', 'n', 'i', ' ')
      case Bishop => ('B', 'i', 's', ' ')
      case Queen => ('Q', 'u', 'e', 'c')
      case King => ('K', 'i', 'n', 'a'))
    case CastlingNotAllowed => ('C', 'a', 's', 'n')
  }

  /** The text `move_piece` returns for each refusal. */
  function Message(r: Refusal): (m: string)
    ensures |m| >= 7 && Key(m) == ReasonKey(r)
  {
    FixedTextKeys();
    match r
    case InvalidInput => "Invalid position input."
    case OutOfBounds => "Position out of bounds."
    case NoPiece => "No piece at starting position."
    case WrongTurn(t) => TurnMessage(t)
    case SameSquare => "Cannot move to same position."
    case IllegalShape(k) => ShapeMessage(k)
    case CastlingNotAllowed => CastlingMessage()
  }

  /** The wrong-turn refusal names the colour to move: "It is white's turn." */
  function TurnMessage(t: Color): (m: string)
    ensures |m| >= 7 && Key(m) == ReasonKey(WrongTurn(t))
  {
    "It is " + ColorName(t) + "'s turn."
  }

  /** The movement-rule refusal names the piece: "Knight cannot move like that." */
  function ShapeMessage(k: Kind): (m: string)
    ensures |m| >= 7 && Key(m) == ReasonKey(IllegalShape(k))
  {
    Name(k) + " cannot move like that."
  }

  /** The distinguishing characters of the four refusal texts that do not depend on the move. */
  lemma FixedTextKeys()
    ensures Key("Invalid position input.") == ReasonKey(InvalidInput)
    ensures Key("Position out of bounds.") == ReasonKey(OutOfBounds)
    ensures Key("No piece at starting position.") == ReasonKey(NoPiece)
    ensures Key("Cannot move to same position.") == ReasonKey(SameSquare)
  {
  }

  /** The castling re-check's refusal text. */
  function CastlingMessage(): (m: string)
    ensures |m| >= 7 && Key(m) == ReasonKey(CastlingNotAllowed)
  {
    // One text, written as two literals so that its first characters can be read
    // off without unfolding all forty-seven of them.
    "Castling" + " not allowed: rook has moved or missing"
  }

  /** Different refusals have different keys. */
  lemma ReasonKeyInjective(r1: Refusal, r2: Refusal)
    ensures ReasonKey(r1) == ReasonKey(r2) ==> r1 == r2
  {
  }

  const MoveSuccessful: string := "Move successful."

  /** A refusal's text names its reason: different reasons give different texts, and none reads as success. */
  lemma MessageIdentifiesReason(r1: Refusal, r2: Refusal)
    ensures Message(r1) == Message(r2) ==> r1 == r2
    ensures Message(r1) != MoveSuccessful
  {
    ReasonKeyInjective(r1, r2);
    assert |MoveSuccessful| >= 7 && Key(MoveSuccessful) == ('M', 'o', 'v', 'u');
  }
}

=== FILE: scenarios.dfy ===
/** Concrete games from the initial placement. */
module Scenarios {
  import opened Wrappers
  import opened Board
  import opened Pieces
  import opened Notation
  import opened Refusals
  import opened ChessGame
  import opened GameFacts

  /** The cells of the initial placement that the scenarios below rely on. */
  lemma StartCells()
    ensures var b := Initial().board;
      && Initial().turn == White
      && At(b, Sq(0, 1)) == Some(Piece(Knight, White, false))
      && At(b, Sq(0, 3)) == Some(Piece(Queen, White, false))
      && At(b, Sq(1, 0)).Some? && At(b, Sq(1, 1)).Some? && At(b, Sq(1, 4)).Some?
      && At(b, Sq(2, 0)) == None
      && At(b, Sq(1, 4)) == Some(Piece(Pawn, White, false))
      && At(b, Sq(2, 4)) == None && At(b, Sq(3, 4)) == None
      && At(b, Sq(6, 4)) == Some(Piece(Pawn, Black, false))
      && At(b, Sq(5, 4)) == None && At(b, Sq(4, 4)) == None
  {
    var b := InitialBoard();
    assert At(b, Sq(0, 1)) == InitialCell(0, 1);
    assert At(b, Sq(0, 3)) == InitialCell(0, 3);
    assert At(b, Sq(1, 0)) == InitialCell(1, 0);
    assert At(b, Sq(1, 1)) == InitialCell(1, 1);
    assert At(b, Sq(1, 4)) == InitialCell(1, 4);
    assert At(b, Sq(2, 0)) == InitialCell(2, 0);
    assert At(b, Sq(2, 4)) == InitialCell(2, 4);
    assert At(b, Sq(3, 4)) == InitialCell(3, 4);
    assert At(b, Sq(4, 4)) == InitialCell(4, 4);
    assert At(b, Sq(5, 4)) == InitialCell(5, 4);
    assert At(b, Sq(6, 4)) == InitialCell(6, 4);
  }

  /** "e2 e4" moves the pawn two squares, empties e2 and passes the turn to Black. */
  lemma OpeningPawnDoubleStep()
    ensures var r := MovePiece(Initial(), "e2", "e4");
      && r.success
      && At(r.game.board, Sq(3, 4)) == Some(Piece(Pawn, White, true))
      && At(r.game.board, Sq(1, 4)) == None
      && r.game.turn == Black
      && r.game.history == ["Pawn from e2 to e4"]
  {
    StartCells();
    WhiteDoubleStep(Initial());
  }

  /**
    In any game where White is to move with an unmoved e-pawn and e3, e4 empty,
    "e2 e4" succeeds, records "Pawn from e2 to e4" and leaves Black's half of
    the board as it was.
  */
  lemma WhiteDoubleStep(g: Game)
    requires g.turn == White
    requires At(g.board, Sq(1, 4)) == Some(Piece(Pawn, White, false))
    requires At(g.board, Sq(2, 4)) == None && At(g.board, Sq(3, 4)) == None
    ensures var r := MovePiece(g, "e2", "e4");
      && r.success
      && At(r.game.board, Sq(3, 4)) == Some(Piece(Pawn, White, true))
      && At(r.game.board, Sq(1, 4)) == None
      && r.game.turn == Black
      && r.game.history == g.history + ["Pawn from e2 to e4"]
      && (forall q :: InBounds(q) && q.row >= 4 ==> At(r.game.board, q) == At(g.board, q))
  {
    assert ParsePosition("e2") == Some(Sq(1, 4));
    assert ParsePosition("e4") == Some(Sq(3, 4));
    assert PawnDoubleStep(g.board, White, Sq(1, 4), Sq(3, 4));
    assert IsValidMove(g, Sq(1, 4), Sq(3, 4)) == Legal;
    MoveEffect(g, "e2", "e4");
    E2E4Text();
  }

  lemma E2E4Text()
    ensures [Describe(MoveRecord(Pawn, "e2", "e4", None))] == ["Pawn from e2 to e4"]
  {
    var d := Describe(MoveRecord(Pawn, "e2", "e4", None));
    var lit := "Pawn from e2 to e4";
    assert |d| == |lit|;
    forall i | 0 <= i < |d| ensures d[i] == lit[i] { }
    assert d == lit;
  }

  /** Black answers "e7 e5": both centre pawns now stand face to face and White is to move. */
  lemma OpeningReply()
    ensures
      var g1 := MovePiece(Initial(), "e2", "e4").game;
      var r2 := MovePiece(g1, "e7", "e5");
      && r2.success && r2.game.turn == White
      && At(r2.game.board, Sq(3, 4)) == Some(Piece(Pawn, White, true))
      && At(r2.game.board, Sq(4, 4)) == Some(Piece(Pawn, Black, true))
  {
    OpeningBlackFileOpen();
    BlackDoubleStep(MovePiece(Initial(), "e2", "e4").game);
  }

  /** In any game where Black is to move with an unmoved e-pawn and an open path, "e7 e5" succeeds. */
  lemma BlackDoubleStep(g: Game)
    requires g.turn == Black
    requires At(g.board, Sq(6, 4)) == Some(Piece(Pawn, Black, false))
    requires At(g.board, Sq(5, 4)) == None && At(g.board, Sq(4, 4)) == None
    ensures
      var r := MovePiece(g, "e7", "e5");
      && r.success && r.game.turn == White
      && At(r.game.board, Sq(3, 4)) == At(g.board, Sq(3, 4))
      && At(r.game.board, Sq(4, 4)) == Some(Piece(Pawn, Black, true))
  {
    assert ParsePosition("e7") == Some(Sq(6, 4));
    assert ParsePosition("e5") == Some(Sq(4, 4));
    assert PawnDoubleStep(g.board, Black, Sq(6, 4), Sq(4, 4));
    assert IsValidMove(g, Sq(6, 4), Sq(4, 4)) == Legal;
    MoveEffect(g, "e7", "e5");
  }

  /** After "e2 e4" Black's e-pawn is still unmoved on e7 with e6 and e5 empty in front of it. */
  lemma OpeningBlackFileOpen()
    ensures
      var g1 := MovePiece(Initial(), "e2", "e4").game;
      && g1.turn == Black
      && At(g1.board, Sq(3, 4)) == Some(Piece(Pawn, White, true))
      && At(g1.board, Sq(6, 4)) == Some(Piece(Pawn, Black, false))
      && At(g1.board, Sq(5, 4)) == None
      && At(g1.board, Sq(4, 4)) == None
  {
    StartCells();
    WhiteDoubleStep(Initial());
  }

  /** After "e2 e4", "e7 e5", White's "e4 e5" is refused: a pawn cannot capture straight ahead. */
  lemma OpeningBlockedPawn()
    ensures
      var g2 := MovePiece(MovePiece(Initial(), "e2", "e4").game, "e7", "e5").game;
      var r3 := MovePiece(g2, "e4", "e5");
      !r3.success && r3.message == Message(IllegalShape(Pawn)) && r3.game == g2
  {
    OpeningReply();
    var g2 := MovePiece(MovePiece(Initial(), "e2", "e4").game, "e7", "e5").game;
    assert ParsePosition("e4") == Some(Sq(3, 4));
    assert ParsePosition("e5") == Some(Sq(4, 4));
    assert !PawnCanMove(g2.board, White, Sq(3, 4), Sq(4, 4));
    assert IsValidMove(g2, Sq(3, 4), Sq(4, 4)) == Illegal(IllegalShape(Pawn));
  }

  /** From the initial placement the queen's diagonal d1-h5 is blocked by the e2 pawn. */
  lemma QueenBlockedAtStart()
    ensures var r := MovePiece(Initial(), "d1", "h5");
      !r.success && r.message == Message(IllegalShape(Queen))
  {
    StartCells();
    WhiteQueenD1H5Blocked(Initial());
  }

  /** "d1 h5" is refused as a Queen move whenever White's queen is on d1 and e2 is occupied. */
  lemma WhiteQueenD1H5Blocked(g: Game)
    requires g.turn == White
    requires At(g.board, Sq(0, 3)).Some? && At(g.board, Sq(0, 3)).value.kind == Queen
    requires At(g.board, Sq(0, 3)).value.color == White
    requires At(g.board, Sq(1, 4)).Some?
    ensures var r := MovePiece(g, "d1", "h5");
      !r.success && r.message == Message(IllegalShape(Queen))
  {
    assert ParsePosition("d1") == Some(Sq(0, 3));
    assert ParsePosition("h5") == Some(Sq(4, 7));
    assert OnDiagonalBetween(Sq(0, 3), Sq(4, 7), Sq(1, 4));
    assert !QueenCanMove(g.board, White, Sq(0, 3), Sq(4, 7));
    assert IsValidMove(g, Sq(0, 3), Sq(4, 7)) == Illegal(IllegalShape(Queen));
  }

  /** A knight jumps over occupied squares: b1 to a3 is legal at the start although a2 and b2 are occupied. */
  lemma KnightJumpsAtStart()
    ensures MovePiece(Initial(), "b1", "a3").success
    ensures At(Initial().board, Sq(1, 0)).Some? && At(Initial().board, Sq(1, 1)).Some?
  {
    StartCells();
    WhiteKnightB1A3(Initial());
  }

  /** "b1 a3" succeeds whenever White is to move with a knight on b1 and a3 empty, whatever stands between. */
  lemma WhiteKnightB1A3(g: Game)
    requires g.turn == White
    requires At(g.board, Sq(0, 1)) == Some(Piece(Knight, White, false))
    requires At(g.board, Sq(2, 0)) == None
    ensures MovePiece(g, "b1", "a3").success
  {
    assert ParsePosition("b1") == Some(Sq(0, 1));
    assert ParsePosition("a3") == Some(Sq(2, 0));
    assert KnightCanMove(g.board, White, Sq(0, 1), Sq(2, 0));
    assert IsValidMove(g, Sq(0, 1), Sq(2, 0)) == Legal;
  }

  /** The initial board with f1 and g1 emptied. */
  function KingsideOpen(): Game {
    Game(Put(Put(InitialBoard(), Sq(0, 5), None), Sq(0, 6), None), White, [])
  }

  /** With f1 and g1 empty, "e1 g1" castles: the king lands on g1, the h1 rook on f1, both marked as moved. */
  lemma KingsideCastleScenario()
    ensures var r := MovePiece(KingsideOpen(), "e1", "g1");
      && r.success
      && At(r.game.board, Sq(0, 6)) == Some(Piece(King, White, true))
      && At(r.game.board, Sq(0, 5)) == Some(Piece(Rook, White, true))
      && At(r.game.board, Sq(0, 7)) == None
      && At(r.game.board, Sq(0, 4)) == None
  {
    var g := KingsideOpen();
    var b0 := InitialBoard();
    assert At(g.board, Sq(0, 4)) == At(b0, Sq(0, 4)) == Some(Piece(King, White, false));
    assert At(g.board, Sq(0, 7)) == At(b0, Sq(0, 7)) == Some(Piece(Rook, White, false));
    WhiteCastlesKingside(g);
  }

  /** "e1 g1" castles whenever White is to move with king and h1 rook unmoved and f1, g1 empty. */
  lemma WhiteCastlesKingside(g: Game)
    requires g.turn == White
    requires At(g.board, Sq(0, 4)) == Some(Piece(King, White, false))
    requires At(g.board, Sq(0, 7)) == Some(Piece(Rook, White, false))
    requires At(g.board, Sq(0, 5)) == None && At(g.board, Sq(0, 6)) == None
    ensures var r := MovePiece(g, "e1", "g1");
      && r.success
      && At(r.game.board, Sq(0, 6)) == Some(Piece(King, White, true))
      && At(r.game.board, Sq(0, 5)) == Some(Piece(Rook, White, true))
      && At(r.game.board, Sq(0, 7)) == None
      && At(r.game.board, Sq(0, 4)) == None
  {
    assert ParsePosition("e1") == Some(Sq(0, 4));
    assert ParsePosition("g1") == Some(Sq(0, 6));
    assert KingsideRoom(g.board, Sq(0, 4));
    assert IsValidMove(g, Sq(0, 4), Sq(0, 6)) == Legal;
    MoveEffect(g, "e1", "g1");
  }
}

=== FILE: wrappers.dfy ===
/** Optional values, standing in for Python's `None`. */
module Wrappers {

  /** `None` is an absent value; `Some(v)` carries `v`. */
  datatype Option<+T> = None | Some(value: T)
}
